=== FILE: README.md ===
# View-inspection overlay of the Ember Inspector, in Dafny

This project models the view-inspection overlay of the Ember Inspector
(`ember_debug/libs/view-inspection.js`). The overlay lets a developer hover over
a rendered element to highlight the render-tree node behind it, then click to pin it.
It has three parts, each a module here:

- **Label tokenizer** (`tokenizer.dfy`, `identity.dfy`, `strings.dfy`). It turns a
  render-tree node or a JavaScript value into `(kind, text)` tokens.
  - Component names are written in angle-bracket or curly form.
  - Outlets and engines get fixed `{{outlet "…"}}` and `{{mount "…"}}` patterns.
  - Scalars become one `id` token.
  - An object reference is looked up in the object inspector's registry. Its string
    form is then parsed against the `<app@type:name::id>` identity regular expression.
- **Overlay renderer** (`overlay.dfy`). The highlight box and the tooltip are a
  record of what is visible: visibility, box, title, category, detail rows and
  `isPinned`. `Show` and `Hide` transform that record.
- **Inspection session** (`session.dfy`). A record holds `isInspecting`, the
  last-target memo, the `mousemove` listener, the overlay and a `didStop` counter.
  `Start`, `Stop`, `OnMouseMove`, `OnClick` and `InspectNearest` are pure transition
  functions on it.

The render tree (`find`, `findNearest`, `getBoundingClientRect`), the object
registry, Ember's `classify` and the window's scroll offsets are parameters,
gathered in `OverlayRenderer.Host`. `wrappers.dfy` defines `Option` and `Completion`;
a `Completion` is a JavaScript evaluation that either returns a value or throws.
`render_tree.dfy` holds the node, value, rectangle and target data.

The regular expression `/<([a-z0-9-_]+)@([a-z0-9-_]+):([a-z0-9-_]+)::([a-z0-9-_]+)>/i`
is modelled exactly:
- With the case-insensitive flag, the class is `[A-Za-z0-9_-]`.
- No delimiter is in the class, so greedy matching at a position never needs to backtrack.
  `MatchAt` is therefore deterministic.
- `Search` takes the leftmost position, as an unanchored match does.

`Identity.MatchAtSound` and `Identity.MatchAtComplete` show that `MatchAt` captures
exactly the well-formed identities that occur at a position.

Two behaviours of the code are worth stating:
- `start()` (lines 184-190) leaves `isPinned` alone, so a session can be pinned and
  inspecting at once (`InspectionSession.PinnedWhileInspectingIsReachable`). The next primary
  click then only unpins.
- The category switch (lines 321-331) has no default branch. A node type outside the
  four known ones keeps the previous category (`OverlayRenderer.RenderCategory`).

## Model

| member | source | states |
|---|---|---|
| Strings.Split | ember_debug/libs/view-inspection.js:381 | `name.split('/')` yields one more part than there are `/` in the name, and no part contains `/` |
| Strings.JoinSplit | ember_debug/libs/view-inspection.js:381 | joining the parts of a split with `/` gives the original name back |
| Strings.SplitJoin | ember_debug/libs/view-inspection.js:381 | splitting the `/`-join of `/`-free parts gives the parts back |
| Strings.IntToDecimal | ember_debug/libs/view-inspection.js:421 | the text form of a BigInt, or of a safe-integer number (at most 2^53 - 1 in magnitude), is a leading minus exactly for negatives followed by a non-empty run of digits with no leading zero unless the value is zero |
| Strings.NatToDecimal | ember_debug/libs/view-inspection.js:421 | a natural number's decimal text has digits only and no leading zero unless the number is zero |
| Strings.NatDecimalRoundTrip | ember_debug/libs/view-inspection.js:421 | reading back a natural number's decimal text gives the number |
| Strings.IntDecimalRoundTrip | ember_debug/libs/view-inspection.js:421 | reading back a signed decimal text gives the integer |
| Identity.RunEnd | ember_debug/libs/view-inspection.js:447 | a greedy `[a-z0-9-_]+` group extends over class characters and stops at the first character outside the class |
| Identity.Field | ember_debug/libs/view-inspection.js:447 | a captured group is a non-empty run of class characters followed immediately by its delimiter |
| Identity.Groups | ember_debug/libs/view-inspection.js:447 | the captured groups are well formed and, interleaved with the delimiters, occur at the start position |
| Identity.GroupsComplete | ember_debug/libs/view-inspection.js:447 | well-formed groups laid out with their delimiters are exactly what the greedy groups capture |
| Identity.MatchAtSound | ember_debug/libs/view-inspection.js:447 | a match at a position is a well-formed identity whose text `<a@b:c::d>` occurs there |
| Identity.MatchAtComplete | ember_debug/libs/view-inspection.js:447 | every well-formed identity text at a position is matched there, with those four groups |
| Identity.SearchFrom | ember_debug/libs/view-inspection.js:447 | the search returns the first position where the expression matches, or fails only if it matches nowhere |
| Identity.SearchFindsLeftmost | ember_debug/libs/view-inspection.js:447 | a found identity occurs where it was found, and no identity starts further left |
| Identity.SearchNoneMeansAbsent | ember_debug/libs/view-inspection.js:447 | a failed search means no identity occurs anywhere in the string |
| Identity.SearchInContext | ember_debug/libs/view-inspection.js:447 | the expression is unanchored: an identity preceded by text without `<` is found, and surrounding text is ignored |
| Identity.RenderRoundTrip | ember_debug/libs/view-inspection.js:445-461 | an identity's own text parses back to that identity at position 0 |
| Tokenizer.Segments | ember_debug/libs/view-inspection.js:380-385 | segments are the `/`-parts of the name, passed through `classify` exactly when there are no positional arguments |
| Tokenizer.NamespaceTokens | ember_debug/libs/view-inspection.js:398-401 | each namespace segment appears in order as a `namespace` token followed by a `::` tag |
| Tokenizer.TokenizeComponentNode | ember_debug/libs/view-inspection.js:379-411 | 2k+1 tokens for k segments, opened by `<` or `{{` and closed by `>` or `}}` as positional args are absent or present, with the namespace segments each followed by `::` and the leaf as the one `name` token |
| Tokenizer.ComponentSegmentsRecovered | ember_debug/libs/view-inspection.js:379-411 | the namespace and name tokens of a component label are exactly its segments, in order |
| Tokenizer.CurlyLabelRecoversName | ember_debug/libs/view-inspection.js:379-411 | with positional arguments, joining the label's segments with `/` gives back the component name |
| Tokenizer.ComponentLabelText | ember_debug/libs/view-inspection.js:379-411 | the label reads as the open tag, the segments joined by `::`, then the close tag |
| Tokenizer.IdentityTokens | ember_debug/libs/view-inspection.js:449-460 | nine tokens of kinds tag, namespace, tag, namespace, tag, name, tag, id, tag; the namespace, name and id tokens hold the four captured groups in order (the id token is `match[4]`), and the texts read back the identity `<a@b:c::d>` |
| Tokenizer.TokenizeObject | ember_debug/libs/view-inspection.js:431-466 | a missing entry, a throwing or empty stringification gives `(unknown)`; otherwise the leftmost identity's nine tokens, or the whole string as one tag when none matches |
| Tokenizer.TokenizeItem | ember_debug/libs/view-inspection.js:414-429 | string, number, bigint, boolean, undefined and null each give one `id` token with their text form (`null` for null; exact decimal digits for numbers, which the model admits only as safe integers, at most 2^53 - 1 in magnitude); object references go to the object tokenizer |
| Tokenizer.NumberTokenReadsBack | ember_debug/libs/view-inspection.js:414-421 | the `id` token of a safe-integer number (at most 2^53 - 1 in magnitude) reads back as that number |
| Tokenizer.SingleIdTokenIffScalar | ember_debug/libs/view-inspection.js:414-466 | a value yields a single `id` token if and only if it is a scalar |
| Tokenizer.ObjectIdentityTokens | ember_debug/libs/view-inspection.js:445-461 | an object whose string form holds an identity after `<`-free text is shown as exactly that identity's nine tokens |
| OverlayRenderer.Initial | ember_debug/libs/view-inspection.js:149-182 | the freshly inserted overlay is hidden, unpinned and consistent, with an empty category and no detail rows |
| OverlayRenderer.HighlightBox | ember_debug/libs/view-inspection.js:269-280 | the highlight box is the bounding rectangle shifted by the scroll offsets: mapping it back to the viewport gives the rectangle |
| OverlayRenderer.HelperTokens | ember_debug/libs/view-inspection.js:309-312 | the outlet/mount pattern has seven tokens of kinds tag, name, tag, tag, id, tag, tag; the helper is the `name` token, the node name is the only `id` token, and the whole reads `{{helper "name"}}` |
| OverlayRenderer.RenderTitle | ember_debug/libs/view-inspection.js:302-316 | components get their tokens; outlets and engines read `{{outlet "name"}}` / `{{mount "name"}}` with kinds tag, name, tag, tag, id, tag, tag, `outlet`/`mount` as the `name` token and the node name as the sole `id` token; other types show the plain name |
| OverlayRenderer.RenderCategory | ember_debug/libs/view-inspection.js:318-332 | route templates get category `route`, components, outlets and engines an empty one, other types keep the previous one |
| OverlayRenderer.RenderDetails | ember_debug/libs/view-inspection.js:334-350 | a `Template` row iff the template is truthy, listed first; a `Controller` (route template) or `Instance` row iff the instance is truthy, holding the instance's tokens |
| OverlayRenderer.Hide | ember_debug/libs/view-inspection.js:263-267 | both elements hidden and the pin released, content kept; hiding a hidden overlay changes nothing |
| OverlayRenderer.Show | ember_debug/libs/view-inspection.js:250-261 | a missing node or rectangle makes it `hide`; otherwise both elements are shown with the node's title, category and details, the box maps back to the rectangle, and `isPinned` equals `pin` |
| InspectionSession.Init | ember_debug/libs/view-inspection.js:142-159 | the constructed session is not inspecting (so, being valid, has no move listener and an empty memo), is hidden, and has not stopped yet |
| InspectionSession.Start | ember_debug/libs/view-inspection.js:184-190 | inspecting with the move listener attached and the memo cleared; the overlay, pin included, is untouched |
| InspectionSession.Stop | ember_debug/libs/view-inspection.js:192-204 | not inspecting, memo cleared, listener detached, overlay hidden exactly when asked, `didStop` run once |
| InspectionSession.InspectNearest | ember_debug/libs/view-inspection.js:223-248 | the memo is tried first when inspecting on the same target, and `findNearest` is consulted iff that finds nothing; a hit shows with `pin`, a miss hides; the memo is updated only while inspecting |
| InspectionSession.OnMouseMove | ember_debug/libs/view-inspection.js:206-210 | a move inspects the event target and never leaves anything pinned |
| InspectionSession.OnClick | ember_debug/libs/view-inspection.js:212-221 | a click while pinned only hides; a primary click while inspecting inspects with a pin and then stops without hiding; any other click changes nothing |
| InspectionSession.StepPreservesValid | ember_debug/libs/view-inspection.js:184-248 | every action keeps the listener in step with `isInspecting`, the memo clear while not inspecting, and the overlay consistent |
| InspectionSession.RunPreservesValid | ember_debug/libs/view-inspection.js:184-248 | any sequence of actions from a valid session, `Init` included, ends in a valid session |
| InspectionSession.RepeatedTargetUsesMemo | ember_debug/libs/view-inspection.js:223-245 | inspecting the same target twice while inspecting answers from the memo without consulting `findNearest`, while the remembered id still resolves |
| InspectionSession.PinThenUnpin | ember_debug/libs/view-inspection.js:212-221 | a primary click whose node can be shown pins it with inspection stopped and `didStop` run once; the next click hides and unpins it |
| InspectionSession.StopTwice | ember_debug/libs/view-inspection.js:192-204 | stopping twice equals one stop that hides if either did, except that `didStop` has run twice |
| InspectionSession.NoMovesAfterStop | ember_debug/libs/view-inspection.js:184-204 | after `start` then `stop`, a mouse move no longer reaches the session |
| InspectionSession.PinnedWhileInspectingIsReachable | ember_debug/libs/view-inspection.js:184-221 | start, pinning click, start reaches a session both inspecting and pinned, whose next primary click only unpins |

## Left out

- Tether positioning (`this.tether.position()` and its constraints). It is an external library with no visible code, so the tooltip's placement is not modelled.
- The HTML and CSS builders (`makeHighlight`, `makeTooltip`, `makeStylesheet`), `_insertHTML`, `_insertStylesheet`, `_renderTooltipDetail` and `_renderTokens`. These are DOM plumbing: rendered content is the `Title`, category and `DetailRow` values of the overlay record.
- `style.pointerEvents = 'none'` and the other style writes besides `display` and the box geometry. They do not affect behaviour.
- Event listener registration, `preventDefault`, `stopPropagation` and capture-phase semantics. This is host event plumbing. The move listener is a boolean, and the click listener is treated as always attached.
- The `Math.random` instance id. It is nondeterministic and only names DOM ids.
- The internals of `Ember.String.classify`. It is an uninterpreted `string -> string` parameter.
- The semantics of `String(object)`. The registry maps an id to no entry, a throwing stringification or a string.
- Floating-point numbers. Rectangle, scroll and number values are integers, so NaN, infinities, fractions and `-0` are not modelled.
- Integral numbers beyond `Number.MAX_SAFE_INTEGER` (2^53 - 1) in magnitude. `${n}` prints their shortest round-tripping digits padded with zeros (2^64 prints as `18446744073709552000`), and from 1e21 on in exponent form (`1e+21`). `Num` therefore admits only safe integers (`RenderTree.JsInteger`).
- Symbol and function values passed to `_tokenizeItem`. Only the scalar types and object references are modelled.
- Calling `renderTree.find` with a null memo id. This cannot be seen from this code, so the model treats it as a miss without a lookup.

=== FILE: identity.dfy ===
/** Recognition of Ember's object identity strings `<app@type:name::id>`, as the
    case-insensitive, unanchored regular expression
    `<([a-z0-9-_]+)@([a-z0-9-_]+):([a-z0-9-_]+)::([a-z0-9-_]+)>` finds them. */
module Identity {
  import opened Wrappers

  /** The character class `[a-z0-9-_]` under the case-insensitive flag. */
  predicate IsIdentChar(c: char) {
    ('a' <= c <= 'z') || ('A' <= c <= 'Z') || ('0' <= c <= '9') || c == '-' || c == '_'
  }

  /** What one capture group `([a-z0-9-_]+)` can hold. */
  predicate IsIdentRun(t: string) {
    |t| > 0 && forall k :: 0 <= k < |t| ==> IsIdentChar(t[k])
  }

  /** The four captured groups: application, object type, object name and object id. */
  datatype Identity = Identity(app: string, kind: string, name: string, id: string)

  predicate Valid(x: Identity) {
    IsIdentRun(x.app) && IsIdentRun(x.kind) && IsIdentRun(x.name) && IsIdentRun(x.id)
  }

  /** The text an identity occupies in a string. */
  function Render(x: Identity): string {
    "<" + (x.app + ("@" + (x.kind + (":" + (x.name + ("::" + (x.id + ">")))))))
  }

  /** `t` occurs in `s` starting at position `i`. */
  predicate OccursAt(s: string, i: nat, t: string)
    decreases |t|
  {
    if |t| == 0 then i <= |s| else i < |s| && s[i] == t[0] && OccursAt(s, i + 1, t[1..])
  }

  /** `OccursAt` is the slice reading of an occurrence. */
  lemma {:induction false} OccursAtSlice(s: string, i: nat, t: string)
    ensures OccursAt(s, i, t) <==> i + |t| <= |s| && s[i..i + |t|] == t
    decreases |t|
  {
    if |t| > 0 {
      OccursAtSlice(s, i + 1, t[1..]);
      if i + |t| <= |s| {
        assert s[i..i + |t|] == [s[i]] + s[i + 1..i + |t|];
        assert t == [t[0]] + t[1..];
        if s[i..i + |t|] == t {
          assert s[i..i + |t|][0] == s[i];
          assert s[i..i + |t|][1..] == s[i + 1..i + |t|];
        }
      }
    }
  }

  /** The regular expression, restricted to a match starting at `i`, would capture `x`. */
  predicate IdentityAt(s: string, i: nat, x: Identity) {
    Valid(x) && OccursAt(s, i, Render(x))
  }

  lemma {:induction false} OccursConcat(s: string, i: nat, a: string, b: string)
    ensures OccursAt(s, i, a + b) <==> OccursAt(s, i, a) && OccursAt(s, i + |a|, b)
    decreases |a|
  {
    if |a| > 0 {
      assert (a + b)[0] == a[0];
      assert (a + b)[1..] == a[1..] + b;
      OccursConcat(s, i + 1, a[1..], b);
    } else {
      assert a + b == b;
    }
  }

  /** End of the longest run of identifier characters starting at `i`: the greedy
      extent of one capture group. */
  function RunEnd(s: string, i: nat): (e: nat)
    requires i <= |s|
    ensures i <= e <= |s|
    ensures forall k :: i <= k < e ==> IsIdentChar(s[k])
    ensures e < |s| ==> !IsIdentChar(s[e])
    decreases |s| - i
  {
    if i < |s| && IsIdentChar(s[i]) then RunEnd(s, i + 1) else i
  }

  lemma {:induction false} RunEndFrom(s: string, p: nat, q: nat)
    requires p <= q < |s|
    requires forall k :: p <= k < q ==> IsIdentChar(s[k])
    requires !IsIdentChar(s[q])
    ensures RunEnd(s, p) == q
    decreases q - p
  {
    if p < q {
      RunEndFrom(s, p + 1, q);
    }
  }

  /** A non-empty capture group starting at `p` followed immediately by `delim`:
      the end of the group, or `None` when the expression fails there. */
  function Field(s: string, p: nat, delim: string): (r: Option<nat>)
    requires p <= |s|
    ensures r.Some? ==> p < r.value <= |s| && IsIdentRun(s[p..r.value]) && OccursAt(s, r.value, delim)
  {
    var e := RunEnd(s, p);
    if p < e && OccursAt(s, e, delim) then Some(e) else None
  }

  /** A group of text `t` followed by a delimiter that cannot extend the group is found by `Field`. */
  lemma FieldOf(s: string, p: nat, t: string, delim: string)
    requires IsIdentRun(t) && |delim| > 0 && !IsIdentChar(delim[0])
    requires OccursAt(s, p, t) && OccursAt(s, p + |t|, delim)
    ensures Field(s, p, delim) == Some(p + |t|)
    ensures s[p..p + |t|] == t
  {
    var q := p + |t|;
    OccursAtSlice(s, p, t);
    forall k | p <= k < q
      ensures IsIdentChar(s[k])
    {
      assert s[p..q][k - p] == s[k];
    }
    RunEndFrom(s, p, q);
  }

  /** The delimiters that close the four groups, in order. */
  const Delims: seq<string> := ["@", ":", "::", ">"]

  /** Delimiters that are non-empty and cannot extend a group. */
  predicate GoodDelims(ds: seq<string>) {
    forall j :: 0 <= j < |ds| ==> |ds[j]| > 0 && !IsIdentChar(ds[j][0])
  }

  predicate AllRuns(gs: seq<string>) {
    forall j :: 0 <= j < |gs| ==> IsIdentRun(gs[j])
  }

  /** Each group followed by its delimiter, one after another. */
  function Interleave(gs: seq<string>, ds: seq<string>): string
    requires |gs| == |ds|
    decreases |ds|
  {
    if |ds| == 0 then "" else gs[0] + (ds[0] + Interleave(gs[1..], ds[1..]))
  }

  /** Greedy capture groups starting at `p`, each closed by its delimiter in `ds`. */
  function Groups(s: string, p: nat, ds: seq<string>): (r: Option<seq<string>>)
    requires p <= |s|
    ensures r.Some? ==> |r.value| == |ds| && AllRuns(r.value) && OccursAt(s, p, Interleave(r.value, ds))
    decreases |ds|
  {
    if |ds| == 0 then Some([])
    else
      match Field(s, p, ds[0])
      case None => None
      case Some(e) =>
        OccursAtSlice(s, e, ds[0]);
        match Groups(s, e + |ds[0]|, ds[1..])
        case None => None
        case Some(rest) =>
          var g := s[p..e];
          OccursAtSlice(s, p, g);
          OccursConcat(s, e, ds[0], Interleave(rest, ds[1..]));
          OccursConcat(s, p, g, ds[0] + Interleave(rest, ds[1..]));
          assert ([g] + rest)[1..] == rest;
          Some([g] + rest)
  }

  /** Well-formed groups laid out with their delimiters from `p` are what `Groups` captures. */
  lemma {:induction false} GroupsComplete(s: string, p: nat, gs: seq<string>, ds: seq<string>)
    requires |gs| == |ds| && AllRuns(gs) && GoodDelims(ds)
    requires OccursAt(s, p, Interleave(gs, ds))
    ensures p <= |s| && Groups(s, p, ds) == Some(gs)
    decreases |ds|
  {
    OccursAtSlice(s, p, Interleave(gs, ds));
    if |ds| > 0 {
      var rest := Interleave(gs[1..], ds[1..]);
      OccursConcat(s, p, gs[0], ds[0] + rest);
      OccursConcat(s, p + |gs[0]|, ds[0], rest);
      FieldOf(s, p, gs[0], ds[0]);
      GroupsComplete(s, p + |gs[0]| + |ds[0]|, gs[1..], ds[1..]);
      assert gs == [gs[0]] + gs[1..];
    }
  }

  function Groups4(x: Identity): seq<string> {
    [x.app, x.kind, x.name, x.id]
  }

  /** The identity's text is its four groups interleaved with the delimiters. */
  lemma RenderInterleaved(x: Identity)
    ensures Render(x) == "<" + Interleave(Groups4(x), Delims)
  {
    var gs := Groups4(x);
    assert Interleave(gs[4..], Delims[4..]) == "";
    assert Interleave(gs[3..], Delims[3..]) == x.id + (">" + "");
    assert Interleave(gs[2..], Delims[2..]) == x.name + ("::" + Interleave(gs[3..], Delims[3..]));
    assert Interleave(gs[1..], Delims[1..]) == x.kind + (":" + Interleave(gs[2..], Delims[2..]));
    assert Interleave(gs, Delims) == x.app + ("@" + Interleave(gs[1..], Delims[1..]));
    assert x.id + (">" + "") == x.id + ">";
  }

  /** The regular expression attempted at position `i` only: a leading `<`, then four
      greedy groups closed by `@`, `:`, `::` and `>`. Every group stops at the first
      character outside the class, and every delimiter starts outside it, so greedy
      matching never needs to backtrack. */
  function MatchAt(s: string, i: nat): Option<Identity> {
    if OccursAt(s, i, "<") then
      match Groups(s, i + 1, Delims)
      case None => None
      case Some(gs) => Some(Identity(gs[0], gs[1], gs[2], gs[3]))
    else None
  }

  /** Whatever `MatchAt` captures is a well-formed identity that occurs at `i`. */
  lemma MatchAtSound(s: string, i: nat)
    requires MatchAt(s, i).Some?
    ensures IdentityAt(s, i, MatchAt(s, i).value)
  {
    var x := MatchAt(s, i).value;
    var gs := Groups(s, i + 1, Delims).value;
    assert Groups4(x) == gs;
    assert IsIdentRun(gs[0]) && IsIdentRun(gs[1]) && IsIdentRun(gs[2]) && IsIdentRun(gs[3]);
    RenderInterleaved(x);
    OccursConcat(s, i, "<", Interleave(gs, Delims));
  }

  /** Every well-formed identity occurring at `i` is what `MatchAt` captures there. */
  lemma MatchAtComplete(s: string, i: nat, x: Identity)
    requires IdentityAt(s, i, x)
    ensures MatchAt(s, i) == Some(x)
  {
    var gs := Groups4(x);
    RenderInterleaved(x);
    OccursConcat(s, i, "<", Interleave(gs, Delims));
    GroupsComplete(s, i + 1, gs, Delims);
  }

  /** A match found by the search: where it starts and what it captured. */
  datatype Found = Found(at: nat, identity: Identity)

  /** The leftmost position at or after `i` where the expression matches. */
  function SearchFrom(s: string, i: nat): (r: Option<Found>)
    requires i <= |s|
    ensures r.Some? ==> i <= r.value.at < |s| && MatchAt(s, r.value.at) == Some(r.value.identity)
    ensures r.Some? ==> forall j :: i <= j < r.value.at ==> MatchAt(s, j).None?
    ensures r.None? ==> forall j :: i <= j < |s| ==> MatchAt(s, j).None?
    decreases |s| - i
  {
    if i == |s| then None
    else
      var m := MatchAt(s, i);
      if m.Some? then Some(Found(i, m.value)) else SearchFrom(s, i + 1)
  }

  /** `s.match(re)` for the identity expression. */
  function Search(s: string): Option<Found> {
    SearchFrom(s, 0)
  }

  /** A found match is a well-formed identity, and no identity starts further left. */
  lemma SearchFindsLeftmost(s: string)
    requires Search(s).Some?
    ensures IdentityAt(s, Search(s).value.at, Search(s).value.identity)
    ensures forall j: nat, y :: j < Search(s).value.at ==> !IdentityAt(s, j, y)
  {
    var f := Search(s).value;
    MatchAtSound(s, f.at);
    forall j: nat, y | j < f.at
      ensures !IdentityAt(s, j, y)
    {
      if IdentityAt(s, j, y) {
        MatchAtComplete(s, j, y);
      }
    }
  }

  /** When the search fails, no identity occurs anywhere in the string. */
  lemma SearchNoneMeansAbsent(s: string)
    requires Search(s).None?
    ensures forall j: nat, y :: !IdentityAt(s, j, y)
  {
    forall j: nat, y
      ensures !IdentityAt(s, j, y)
    {
      if IdentityAt(s, j, y) {
        MatchAtComplete(s, j, y);
      }
    }
  }

  /** The expression is unanchored: an identity preceded by text without `<` is
      found after that text, whatever follows it. */
  lemma SearchInContext(pre: string, x: Identity, post: string)
    requires Valid(x)
    requires '<' !in pre
    ensures Search(pre + Render(x) + post) == Some(Found(|pre|, x))
  {
    var s := pre + Render(x) + post;
    assert s[|pre|..|pre| + |Render(x)|] == Render(x);
    OccursAtSlice(s, |pre|, Render(x));
    MatchAtComplete(s, |pre|, x);
    forall j | 0 <= j < |pre|
      ensures MatchAt(s, j).None?
    {
      assert s[j] == pre[j];
    }
  }

  /** The identity's own text is recognised: the parse inverts `Render`. */
  lemma RenderRoundTrip(x: Identity)
    requires Valid(x)
    ensures Search(Render(x)) == Some(Found(0, x))
  {
    SearchInContext("", x, "");
    assert "" + Render(x) + "" == Render(x);
  }
}

=== FILE: overlay.dfy ===
/** The overlay renderer: the highlight box and the tooltip, as a record of what
    is visible, and the operations `show`/`hide` with the tooltip content builders. */
module OverlayRenderer {
  import opened Wrappers
  import opened RenderTree
  import opened Tokenizer

  /** `window.scrollX` and `window.scrollY`. */
  datatype Scroll = Scroll(x: int, y: int)

  /** Everything outside the overlay that it reads: the render tree, the object
      inspector's registry, Ember's `classify`, and the window's scroll offsets. */
  datatype Host = Host(tree: Tree, registry: Registry, classify: string -> string, scroll: Scroll)

  /** The highlight's position and size in document coordinates. */
  datatype Box = Box(top: int, left: int, width: int, height: int)

  /** The tooltip title: rendered tokens, or plain text set through `innerText`. */
  datatype Title = TitleTokens(tokens: seq<Token>) | TitleText(text: string)

  /** A detail row's value cell: plain text or rendered tokens. */
  datatype DetailValue = DetailText(text: string) | DetailTokens(tokens: seq<Token>)

  datatype DetailRow = DetailRow(key: string, value: DetailValue)

  /** What the two owned elements show. Hiding only sets `display: none`, so the
      content of a hidden element is whatever was rendered last. */
  datatype Overlay = Overlay(
    highlightShown: bool,
    box: Box,
    tooltipShown: bool,
    title: Title,
    category: string,
    details: seq<DetailRow>,
    isPinned: bool)

  /** Both elements hidden and nothing pinned. */
  predicate Hidden(o: Overlay) {
    !o.highlightShown && !o.tooltipShown && !o.isPinned
  }

  /** The two elements are shown and hidden together, and a pin is only held
      while they are shown. */
  predicate Consistent(o: Overlay) {
    o.highlightShown == o.tooltipShown && (o.isPinned ==> o.highlightShown)
  }

  /** The freshly inserted elements: hidden by the stylesheet, with empty content. */
  function Initial(): (o: Overlay)
    ensures Hidden(o) && Consistent(o)
    ensures o.category == "" && o.details == []
  {
    Overlay(false, Box(0, 0, 0, 0), false, TitleTokens([]), "", [], false)
  }

  /** The viewport rectangle a document-space box covers at the given scroll offsets. */
  function ViewportRect(b: Box, scroll: Scroll): Rect {
    Rect(b.top - scroll.y, b.left - scroll.x, b.width, b.height)
  }

  /** `_showHighlight`: the viewport rectangle moved into document coordinates. */
  function HighlightBox(rect: Rect, scroll: Scroll): (b: Box)
    ensures ViewportRect(b, scroll) == rect
  {
    Box(rect.top + scroll.y, rect.left + scroll.x, rect.width, rect.height)
  }

  /** The kinds of the `{{helper "name"}}` pattern: the helper is a `name` token,
      the argument the one `id` token, the punctuation `tag` tokens. */
  const HelperKinds: seq<TokenKind> := [Tag, Name, Tag, Tag, Id, Tag, Tag]

  /** `{{helper "name"}}` with the name as the only `id` token. */
  function HelperTokens(helper: string, name: string): (r: seq<Token>)
    ensures |r| == 7
    ensures Kinds(r) == HelperKinds
    ensures forall j :: 0 <= j < 7 ==> (r[j].kind == Id <==> j == 4)
    ensures r[1].text == helper && r[4].text == name
    ensures Text(r) == "{{" + helper + " \"" + name + "\"}}"
  {
    var r := [Token(Tag, "{{"), Token(Name, helper), Token(Tag, " "), Token(Tag, "\""),
              Token(Id, name), Token(Tag, "\""), Token(Tag, "}}")];
    TextOfSeven(r);
    r
  }

  /** `_renderTooltipTitle`. */
  function RenderTitle(node: Node, classify: string -> string): (t: Title)
    ensures node.nodeType == Component ==> t == TitleTokens(TokenizeComponentNode(node, classify))
    ensures node.nodeType == Outlet ==>
              t.TitleTokens? && Kinds(t.tokens) == HelperKinds
              && t.tokens[1] == Token(Name, "outlet") && t.tokens[4] == Token(Id, node.name)
              && (forall j :: 0 <= j < |t.tokens| ==> (t.tokens[j].kind == Id <==> j == 4))
              && Text(t.tokens) == "{{outlet \"" + node.name + "\"}}"
    ensures node.nodeType == Engine ==>
              t.TitleTokens? && Kinds(t.tokens) == HelperKinds
              && t.tokens[1] == Token(Name, "mount") && t.tokens[4] == Token(Id, node.name)
              && (forall j :: 0 <= j < |t.tokens| ==> (t.tokens[j].kind == Id <==> j == 4))
              && Text(t.tokens) == "{{mount \"" + node.name + "\"}}"
    ensures node.nodeType == RouteTemplate || node.nodeType.OtherType? ==> t == TitleText(node.name)
  {
    match node.nodeType
    case Component => TitleTokens(TokenizeComponentNode(node, classify))
    case Outlet => TitleTokens(HelperTokens("outlet", node.name))
    case Engine => TitleTokens(HelperTokens("mount", node.name))
    case _ => TitleText(node.name)
  }

  /** `_renderTooltipCategory`: the switch has no default, so a node type outside
      the four known ones leaves the previous category in place. */
  function RenderCategory(previous: string, node: Node): (c: string)
    ensures node.nodeType == RouteTemplate ==> c == "route"
    ensures node.nodeType in {Component, Outlet, Engine} ==> c == ""
    ensures node.nodeType.OtherType? ==> c == previous
  {
    match node.nodeType
    case RouteTemplate => "route"
    case OtherType(_) => previous
    case _ => ""
  }

  /** The label of the instance row: a route template's instance is its controller. */
  function InstanceKey(node: Node): string {
    if node.nodeType == RouteTemplate then "Controller" else "Instance"
  }

  /** `_renderTooltipDetails`: a `Template` row iff the template is truthy, listed
      first, then a `Controller`/`Instance` row iff the instance is truthy. */
  function RenderDetails(node: Node, registry: Registry): (rows: seq<DetailRow>)
    ensures |rows| == (if node.HasTemplate() then 1 else 0) + (if node.instance.Truthy() then 1 else 0)
    ensures node.HasTemplate() ==> rows[0] == DetailRow("Template", DetailText(node.template.value))
    ensures node.instance.Truthy() ==>
              rows[|rows| - 1].key == (if node.nodeType == RouteTemplate then "Controller" else "Instance")
              && rows[|rows| - 1].value == DetailTokens(TokenizeItem(node.instance, registry))
  {
    var template := if node.HasTemplate() then [DetailRow("Template", DetailText(node.template.value))] else [];
    var instance := if node.instance.Truthy()
                    then [DetailRow(InstanceKey(node), DetailTokens(TokenizeItem(node.instance, registry)))]
                    else [];
    template + instance
  }

  /** `hide`: both elements hidden and the pin released; their content is kept.
      Hiding an overlay that is already hidden changes nothing. */
  function Hide(o: Overlay): (r: Overlay)
    ensures Hidden(r) && Consistent(r)
    ensures r.box == o.box && r.title == o.title && r.category == o.category && r.details == o.details
    ensures Hidden(o) ==> r == o
  {
    o.(highlightShown := false, tooltipShown := false, isPinned := false)
  }

  /** `show(id, pin)`: without a node or a bounding rectangle for `id` it is `hide`;
      otherwise both elements show the node, the box is the rectangle in document
      coordinates, and the pin is set to `pin`. */
  function Show(o: Overlay, host: Host, id: NodeId, pin: bool): (r: Overlay)
    ensures Consistent(r)
    ensures host.tree.find(id).None? || host.tree.boundingRect(id).None? ==> r == Hide(o)
    ensures host.tree.find(id).Some? && host.tree.boundingRect(id).Some? ==>
              var node := host.tree.find(id).value;
              && r.highlightShown && r.tooltipShown && r.isPinned == pin
              && ViewportRect(r.box, host.scroll) == host.tree.boundingRect(id).value
              && r.title == RenderTitle(node, host.classify)
              && r.category == RenderCategory(o.category, node)
              && r.details == RenderDetails(node, host.registry)
  {
    match (host.tree.find(id), host.tree.boundingRect(id))
    case (Some(node), Some(rect)) =>
      Overlay(
        true, HighlightBox(rect, host.scroll),
        true, RenderTitle(node, host.classify), RenderCategory(o.category, node), RenderDetails(node, host.registry),
        pin)
    case _ => Hide(o)
  }
}

=== FILE: render_tree.dfy ===
/** The data the overlay reads from its collaborators: render-tree nodes, the
    JavaScript values a node carries, geometry, DOM targets, and the render
    tree's query interface as opaque functions. */
module RenderTree {
  import opened Wrappers

  /** Render-tree node ids and object-inspector ids are strings. */
  type NodeId = string
  type ObjectId = string

  /** A `node.type` tag other than the four the overlay distinguishes. */
  type OtherTag = t: string | t != "component" && t != "outlet" && t != "engine" && t != "route-template"
    witness "other"

  /** `node.type`; the four types the render tree produces, plus any other tag. */
  datatype NodeType = Component | Outlet | Engine | RouteTemplate | OtherType(tag: OtherTag)

  /** The safe integers (`Number.MAX_SAFE_INTEGER` is 2^53 - 1): every one is a
      double, and `${n}` prints exactly its decimal digits. Beyond them a double's
      text is its shortest round-tripping digits padded with zeros, and from 1e21
      on it is exponent form. */
  type JsInteger = n: int | -9_007_199_254_740_991 <= n <= 9_007_199_254_740_991

  /** The JavaScript values a node's `instance` (or a positional argument) can be.
      Numbers are safe integers here; an object reference is the serialized `{ id }`
      the object inspector hands out. */
  datatype Value =
    | Str(s: string)
    | Num(n: JsInteger)
    | BigInt(big: int)
    | Bool(b: bool)
    | Undefined
    | Null
    | ObjectRef(id: ObjectId)
  {
    /** `typeof` is string, number, bigint, boolean or undefined, or the value is `null`. */
    predicate IsScalar() {
      !ObjectRef?
    }

    /** JavaScript truthiness: `""`, `0`, `0n`, `false`, `undefined` and `null` are falsy. */
    predicate Truthy() {
      match this
      case Str(s) => s != ""
      case Num(n) => n != 0
      case BigInt(big) => big != 0
      case Bool(b) => b
      case Undefined => false
      case Null => false
      case ObjectRef(_) => true
    }
  }

  /** A render-tree node: `id`, `type`, `name`, `template`, `instance` and `args.positional`. */
  datatype Node = Node(
    id: NodeId,
    nodeType: NodeType,
    name: string,
    template: Option<string>,
    instance: Value,
    positional: seq<Value>)
  {
    /** `node.template` is truthy: present and not the empty string. */
    predicate HasTemplate() {
      template.Some? && template.value != ""
    }
  }

  /** A bounding client rectangle in viewport coordinates (pixels as integers). */
  datatype Rect = Rect(top: int, left: int, width: int, height: int)

  /** The identity of a DOM element that an event can target. */
  datatype Target = Target(element: nat)

  /** The render tree's query interface: `find(id)`, `findNearest(target, hintId)`
      and `getBoundingClientRect(id)`, each answering "nothing" with `None`. */
  datatype Tree = Tree(
    find: NodeId -> Option<Node>,
    findNearest: (Target, Option<NodeId>) -> Option<Node>,
    boundingRect: NodeId -> Option<Rect>)
}

=== FILE: session.dfy ===
/** The inspection session: the state machine that follows the pointer while
    inspecting, pins a node on a primary click, and unpins on the next click. */
module InspectionSession {
  import opened Wrappers
  import opened RenderTree
  import opened OverlayRenderer

  /** The parts of a DOM mouse event the session reads. */
  datatype MouseEvent = MouseEvent(target: Target, button: int)

  /** The session's fields, the overlay it drives, whether the capture-phase
      `mousemove` listener is attached, and how many times `didStop` has run. */
  datatype Session = Session(
    isInspecting: bool,
    lastTarget: Option<Target>,
    lastMatchId: Option<NodeId>,
    moveListener: bool,
    overlay: Overlay,
    stops: nat)

  /** The state the constructor leaves: not inspecting, nothing memoised, nothing
      pinned, the elements hidden. */
  function Init(): (s: Session)
    ensures !s.isInspecting
    ensures Valid(s) && Hidden(s.overlay) && s.stops == 0
  {
    Session(false, None, None, false, Initial(), 0)
  }

  /** What every reachable session satisfies. */
  predicate Valid(s: Session) {
    && s.moveListener == s.isInspecting
    && (!s.isInspecting ==> s.lastTarget.None? && s.lastMatchId.None?)
    && (s.lastMatchId.Some? ==> s.lastTarget.Some?)
    && Consistent(s.overlay)
  }

  /** `start`: inspecting, memo cleared, the move listener attached. The overlay,
      including its pin, is left as it is. */
  function Start(s: Session): (r: Session)
    ensures r.isInspecting && r.moveListener
    ensures r.lastTarget.None? && r.lastMatchId.None?
    ensures r.overlay == s.overlay && r.stops == s.stops
  {
    s.(isInspecting := true, lastTarget := None, lastMatchId := None, moveListener := true)
  }

  /** `stop(shouldHide)`: hides first when asked, then leaves inspection, clears the
      memo, detaches the move listener and calls `didStop` once. */
  function Stop(s: Session, shouldHide: bool): (r: Session)
    ensures !r.isInspecting && !r.moveListener
    ensures r.lastTarget.None? && r.lastMatchId.None?
    ensures r.overlay == (if shouldHide then Hide(s.overlay) else s.overlay)
    ensures r.stops == s.stops + 1
  {
    var o := if shouldHide then Hide(s.overlay) else s.overlay;
    s.(overlay := o, isInspecting := false, lastTarget := None, lastMatchId := None, moveListener := false, stops := s.stops + 1)
  }

  /** The outcome of `inspectNearest`: the new state, the node it returns, and
      whether the render tree's `findNearest` was consulted. */
  datatype Inspected = Inspected(state: Session, found: Option<Node>, askedNearest: bool)

  /** Whether `inspectNearest` may answer from its memo: inspecting, the same target
      as last time, and a remembered match id. */
  predicate MemoApplies(s: Session, target: Target) {
    s.isInspecting && s.lastTarget == Some(target) && s.lastMatchId.Some?
  }

  /** `inspectNearest(target, pin)`. */
  function InspectNearest(s: Session, host: Host, target: Target, pin: bool): (r: Inspected)
    ensures !r.askedNearest <==> MemoApplies(s, target) && host.tree.find(s.lastMatchId.value).Some?
    ensures !r.askedNearest ==> r.found == host.tree.find(s.lastMatchId.value)
    ensures r.askedNearest ==> r.found == host.tree.findNearest(target, s.lastMatchId)
    ensures r.found.Some? ==> r.state.overlay == Show(s.overlay, host, r.found.value.id, pin)
    ensures r.found.None? ==> r.state.overlay == Hide(s.overlay)
    ensures s.isInspecting ==>
              r.state.lastTarget == Some(target)
              && r.state.lastMatchId == (if r.found.Some? then Some(r.found.value.id) else None)
    ensures !s.isInspecting ==> r.state.lastTarget == s.lastTarget && r.state.lastMatchId == s.lastMatchId
    ensures r.state.isInspecting == s.isInspecting && r.state.moveListener == s.moveListener
    ensures r.state.stops == s.stops
  {
    var remembered := if MemoApplies(s, target) then host.tree.find(s.lastMatchId.value) else None;
    var m := if remembered.Some? then remembered else host.tree.findNearest(target, s.lastMatchId);
    var o := if m.Some? then Show(s.overlay, host, m.value.id, pin) else Hide(s.overlay);
    var s' :=
      if s.isInspecting
      then s.(overlay := o, lastTarget := Some(target), lastMatchId := if m.Some? then Some(m.value.id) else None)
      else s.(overlay := o);
    Inspected(s', m, remembered.None?)
  }

  /** `onMouseMove`: inspect the event target without pinning. */
  function OnMouseMove(s: Session, host: Host, e: MouseEvent): (r: Session)
    ensures r == InspectNearest(s, host, e.target, false).state
    ensures !r.overlay.isPinned
  {
    InspectNearest(s, host, e.target, false).state
  }

  /** `onClick`: a click while pinned only hides; a primary-button click while
      inspecting pins the nearest node and stops without hiding; any other click
      changes nothing. */
  function OnClick(s: Session, host: Host, e: MouseEvent): (r: Session)
    ensures s.overlay.isPinned ==> r == s.(overlay := Hide(s.overlay))
    ensures !s.overlay.isPinned && s.isInspecting && e.button == 0 ==>
              var inspected := InspectNearest(s, host, e.target, true);
              && !r.isInspecting && !r.moveListener
              && r.lastTarget.None? && r.lastMatchId.None?
              && r.stops == s.stops + 1
              && r.overlay == inspected.state.overlay
    ensures !s.overlay.isPinned && !(s.isInspecting && e.button == 0) ==> r == s
  {
    if s.overlay.isPinned then s.(overlay := Hide(s.overlay))
    else if s.isInspecting && e.button == 0 then Stop(InspectNearest(s, host, e.target, true).state, false)
    else s
  }

  /** The inputs the session reacts to: the owner's `start`/`stop` calls and the
      events the DOM delivers to its listeners. */
  datatype Action = StartAction | StopAction(shouldHide: bool) | MoveAction(e: MouseEvent) | ClickAction(e: MouseEvent)

  /** One action. A mouse move reaches `onMouseMove` only while its listener is
      attached; the click listener is attached for the session's whole life. */
  function Step(s: Session, host: Host, a: Action): Session {
    match a
    case StartAction => Start(s)
    case StopAction(shouldHide) => Stop(s, shouldHide)
    case MoveAction(e) => if s.moveListener then OnMouseMove(s, host, e) else s
    case ClickAction(e) => OnClick(s, host, e)
  }

  /** A sequence of actions, each against the host as it is at that moment. */
  function Run(s: Session, steps: seq<(Host, Action)>): Session
    decreases |steps|
  {
    if |steps| == 0 then s else Run(Step(s, steps[0].0, steps[0].1), steps[1..])
  }

  lemma StepPreservesValid(s: Session, host: Host, a: Action)
    requires Valid(s)
    ensures Valid(Step(s, host, a))
  {
    match a
    case StartAction =>
    case StopAction(_) =>
    case MoveAction(e) =>
    case ClickAction(e) =>
      if !s.overlay.isPinned && s.isInspecting && e.button == 0 {
        var inspected := InspectNearest(s, host, e.target, true);
        assert Consistent(inspected.state.overlay);
      }
  }

  /** Every session reached from a valid one is valid; in particular every session
      reached from `Init`. */
  lemma {:induction false} RunPreservesValid(s: Session, steps: seq<(Host, Action)>)
    requires Valid(s)
    ensures Valid(Run(s, steps))
    decreases |steps|
  {
    if |steps| > 0 {
      StepPreservesValid(s, steps[0].0, steps[0].1);
      RunPreservesValid(Step(s, steps[0].0, steps[0].1), steps[1..]);
    }
  }

  /** Inspecting the same target twice while inspecting answers the second time from
      the memo, without consulting `findNearest`, whenever the remembered id still
      resolves. */
  lemma RepeatedTargetUsesMemo(s: Session, host: Host, target: Target, pin1: bool, pin2: bool)
    requires s.isInspecting
    requires InspectNearest(s, host, target, pin1).found.Some?
    requires host.tree.find(InspectNearest(s, host, target, pin1).found.value.id).Some?
    ensures var first := InspectNearest(s, host, target, pin1);
            var second := InspectNearest(first.state, host, target, pin2);
            !second.askedNearest && second.found == host.tree.find(first.found.value.id)
  {
  }

  /** A primary click while inspecting whose nearest node can be shown leaves that
      node pinned with inspection stopped; the next click, of any button, unpins and
      hides it and leaves inspection off. */
  lemma PinThenUnpin(s: Session, host: Host, e: MouseEvent, next: MouseEvent)
    requires !s.overlay.isPinned && s.isInspecting && e.button == 0
    requires var m := InspectNearest(s, host, e.target, true).found;
             m.Some? && host.tree.find(m.value.id).Some? && host.tree.boundingRect(m.value.id).Some?
    ensures var pinned := OnClick(s, host, e);
            && pinned.overlay.isPinned && pinned.overlay.highlightShown && pinned.overlay.tooltipShown
            && !pinned.isInspecting && pinned.stops == s.stops + 1
            && var after := OnClick(pinned, host, next);
               Hidden(after.overlay) && !after.isInspecting && after.stops == pinned.stops
  {
  }

  /** Stopping twice leaves the state of one stop, hiding if either asked for it,
      except that `didStop` has run twice. */
  lemma StopTwice(s: Session, hide1: bool, hide2: bool)
    ensures Stop(Stop(s, hide1), hide2) == Stop(s, hide1 || hide2).(stops := s.stops + 2)
  {
  }

  /** After `start` and `stop`, mouse moves no longer reach the session. */
  lemma NoMovesAfterStop(s: Session, host: Host, shouldHide: bool, e: MouseEvent)
    ensures var stopped := Stop(Start(s), shouldHide);
            Step(stopped, host, MoveAction(e)) == stopped
  {
  }

  /** `start` does not release a pin: after a pinning click, starting again gives a
      session that is inspecting and pinned at once, and whose next primary click
      only unpins instead of pinning a new node. */
  lemma PinnedWhileInspectingIsReachable(host: Host, e: MouseEvent, n: Node, rect: Rect)
    requires e.button == 0
    requires host.tree.findNearest(e.target, None) == Some(n)
    requires host.tree.find(n.id) == Some(n) && host.tree.boundingRect(n.id) == Some(rect)
    ensures var s := Run(Init(), [(host, StartAction), (host, ClickAction(e)), (host, StartAction)]);
            && s.isInspecting && s.overlay.isPinned
            && var after := Step(s, host, ClickAction(e));
               after.isInspecting && Hidden(after.overlay)
  {
    var steps := [(host, StartAction), (host, ClickAction(e)), (host, StartAction)];
    var s0 := Init();
    var s1 := Start(s0);
    assert Run(s0, steps) == Run(s1, steps[1..]);
    var s2 := OnClick(s1, host, e);
    assert InspectNearest(s1, host, e.target, true).found == Some(n);
    assert s2.overlay.isPinned;
    assert Run(s1, steps[1..]) == Run(s2, steps[2..]);
    var s3 := Start(s2);
    assert Run(s2, steps[2..]) == Run(s3, steps[3..]);
    assert steps[3..] == [];
  }
}

=== FILE: strings.dfy ===
/** String helpers: JavaScript's `String.prototype.split` on one separator
    character, its inverse `join`, and the decimal text form of integers. */
module Strings {

  /** How many times `c` occurs in `s`. */
  function Occurrences(s: string, c: char): nat
    decreases |s|
  {
    if |s| == 0 then 0
    else (if s[0] == c then 1 else 0) + Occurrences(s[1..], c)
  }

  /** `Occurrences` is the multiplicity of `c` in the multiset of `s`'s characters. */
  lemma {:induction false} OccurrencesIsMultiplicity(s: string, c: char)
    ensures Occurrences(s, c) == multiset(s)[c]
    decreases |s|
  {
    if |s| > 0 {
      OccurrencesIsMultiplicity(s[1..], c);
      assert s == [s[0]] + s[1..];
    }
  }

  /** `s.split(sep)` for a one-character separator: always at least one part,
      and no part contains the separator. */
  function Split(s: string, sep: char): (parts: seq<string>)
    ensures |parts| == Occurrences(s, sep) + 1
    ensures forall i :: 0 <= i < |parts| ==> sep !in parts[i]
    decreases |s|
  {
    if |s| == 0 then [""]
    else
      var rest := Split(s[1..], sep);
      if s[0] == sep then [""] + rest
      else [[s[0]] + rest[0]] + rest[1..]
  }

  /** `parts.join(sep)`. */
  function Join(parts: seq<string>, sep: string): string
    decreases |parts|
  {
    if |parts| == 0 then ""
    else if |parts| == 1 then parts[0]
    else parts[0] + sep + Join(parts[1..], sep)
  }

  /** How `Split` unfolds on a non-empty string. */
  lemma SplitCons(s: string, sep: char)
    requires |s| > 0
    ensures s[0] == sep ==> Split(s, sep) == [""] + Split(s[1..], sep)
    ensures s[0] != sep ==>
              Split(s, sep) == [[s[0]] + Split(s[1..], sep)[0]] + Split(s[1..], sep)[1..]
  {
  }

  /** Gluing a character onto the first part glues it onto the front of the join. */
  lemma {:induction false} JoinPrepend(c: char, parts: seq<string>, sep: string)
    requires |parts| >= 1
    ensures Join([[c] + parts[0]] + parts[1..], sep) == [c] + Join(parts, sep)
  {
    var glued := [[c] + parts[0]] + parts[1..];
    assert glued[0] == [c] + parts[0];
    assert glued[1..] == parts[1..];
    if |parts| > 1 {
      assert Join(parts, sep) == parts[0] + sep + Join(parts[1..], sep);
      assert Join(glued, sep) == glued[0] + sep + Join(glued[1..], sep);
      assert [c] + parts[0] + sep + Join(parts[1..], sep) == [c] + (parts[0] + sep + Join(parts[1..], sep));
    }
  }

  /** Gluing an empty first part with a separator puts the separator in front of the join. */
  lemma JoinEmptyFirst(parts: seq<string>, sep: string)
    requires |parts| >= 1
    ensures Join([""] + parts, sep) == sep + Join(parts, sep)
  {
    assert ([""] + parts)[1..] == parts;
    assert "" + sep + Join(parts, sep) == sep + Join(parts, sep);
  }

  /** Joining the parts of a split with the separator gives the original string back. */
  lemma {:induction false} JoinSplit(s: string, sep: char)
    ensures Join(Split(s, sep), [sep]) == s
    decreases |s|
  {
    if |s| > 0 {
      var rest := Split(s[1..], sep);
      JoinSplit(s[1..], sep);
      SplitCons(s, sep);
      if s[0] == sep {
        JoinEmptyFirst(rest, [sep]);
        calc {
          Join(Split(s, sep), [sep]);
          Join([""] + rest, [sep]);
          [sep] + Join(rest, [sep]);
          [s[0]] + s[1..];
        }
      } else {
        JoinPrepend(s[0], rest, [sep]);
        calc {
          Join(Split(s, sep), [sep]);
          Join([[s[0]] + rest[0]] + rest[1..], [sep]);
          [s[0]] + Join(rest, [sep]);
          [s[0]] + s[1..];
        }
      }
      assert [s[0]] + s[1..] == s;
    }
  }

  /** Splitting a separator-free prefix glued to `t` extends the first part of `t`'s split. */
  lemma {:induction false} SplitPrefix(a: string, t: string, sep: char)
    requires sep !in a
    ensures Split(a + t, sep) == [a + Split(t, sep)[0]] + Split(t, sep)[1..]
    decreases |a|
  {
    if |a| > 0 {
      assert (a + t)[1..] == a[1..] + t;
      assert sep !in a[1..];
      SplitPrefix(a[1..], t, sep);
      var st := Split(t, sep);
      assert (a + t)[0] == a[0] && a[0] != sep;
      assert Split(a + t, sep) == [[a[0]] + (a[1..] + st[0])] + st[1..];
      assert [a[0]] + (a[1..] + st[0]) == a + st[0];
    } else {
      var st := Split(t, sep);
      assert a + t == t;
      assert a + st[0] == st[0];
      assert [st[0]] + st[1..] == st;
    }
  }

  /** Splitting the join of separator-free parts gives the parts back. */
  lemma {:induction false} SplitJoin(parts: seq<string>, sep: char)
    requires |parts| >= 1
    requires forall i :: 0 <= i < |parts| ==> sep !in parts[i]
    ensures Split(Join(parts, [sep]), sep) == parts
    decreases |parts|
  {
    if |parts| == 1 {
      SplitPrefix(parts[0], "", sep);
      assert parts[0] + "" == parts[0];
    } else {
      var j := Join(parts[1..], [sep]);
      SplitJoin(parts[1..], sep);
      assert Join(parts, [sep]) == parts[0] + ([sep] + j);
      SplitPrefix(parts[0], [sep] + j, sep);
      assert ([sep] + j)[1..] == j;
      assert Split([sep] + j, sep) == [""] + parts[1..];
      assert Split([sep] + j, sep)[0] == "" && Split([sep] + j, sep)[1..] == parts[1..];
      assert parts[0] + "" == parts[0];
      assert parts == [parts[0]] + parts[1..];
    }
  }

  predicate IsDigit(c: char) {
    '0' <= c <= '9'
  }

  function DigitChar(d: nat): (c: char)
    requires d < 10
    ensures IsDigit(c)
  {
    (48 + d) as char
  }

  function DigitValue(c: char): (d: nat)
    requires IsDigit(c)
    ensures d < 10
  {
    c as int - 48
  }

  predicate AllDigits(s: string) {
    forall k :: 0 <= k < |s| ==> IsDigit(s[k])
  }

  /** Decimal text of a natural number: non-empty, all digits, and no leading zero
      except for zero itself. */
  function NatToDecimal(n: nat): (s: string)
    ensures |s| >= 1 && AllDigits(s)
    ensures s[0] == '0' ==> n == 0
    decreases n
  {
    if n < 10 then [DigitChar(n)] else NatToDecimal(n / 10) + [DigitChar(n % 10)]
  }

  /** JavaScript's text form of a BigInt or of a safe-integer number: a minus sign
      exactly for negative values, followed by the decimal digits of the magnitude. */
  function IntToDecimal(n: int): (s: string)
    ensures |s| >= 1
    ensures (s[0] == '-') <==> n < 0
    ensures AllDigits(if n < 0 then s[1..] else s)
    ensures var d := if n < 0 then s[1..] else s; |d| >= 1 && (d[0] == '0' ==> n == 0)
  {
    if n < 0 then "-" + NatToDecimal(-n) else NatToDecimal(n)
  }

  /** The value of a string of decimal digits; the reference reading of `NatToDecimal`. */
  function DecimalValue(s: string): nat
    requires AllDigits(s)
    decreases |s|
  {
    if |s| == 0 then 0 else DecimalValue(s[..|s| - 1]) * 10 + DigitValue(s[|s| - 1])
  }

  /** Reading back the decimal text of `n` gives `n`. */
  lemma {:induction false} NatDecimalRoundTrip(n: nat)
    ensures DecimalValue(NatToDecimal(n)) == n
    decreases n
  {
    if n >= 10 {
      var s := NatToDecimal(n);
      NatDecimalRoundTrip(n / 10);
      assert s[..|s| - 1] == NatToDecimal(n / 10);
    }
  }

  /** Reading back the signed decimal text of `n` gives `n`. */
  lemma IntDecimalRoundTrip(n: int)
    ensures var s := IntToDecimal(n);
            (if s[0] == '-' then -(DecimalValue(s[1..]) as int) else DecimalValue(s)) == n
  {
    var s := IntToDecimal(n);
    if n < 0 {
      var d := NatToDecimal(-n);
      NatDecimalRoundTrip(-n);
      assert s == "-" + d;
      assert s[0] == '-' && s[1..] == d;
    } else {
      NatDecimalRoundTrip(n);
      assert s == NatToDecimal(n);
    }
  }
}

=== FILE: tokenizer.dfy ===
/** The label tokenizer: turns a render-tree node or a JavaScript value into an
    ordered list of `(kind, text)` tokens for the tooltip. */
module Tokenizer {
  import opened Wrappers
  import opened Strings
  import opened RenderTree
  import Identity

  /** The four token kinds, each styled by its own CSS class. */
  datatype TokenKind = Tag | Name | Namespace | Id

  datatype Token = Token(kind: TokenKind, text: string)

  /** The object inspector's `sentObjects`, read through `String(object)`: no entry,
      an entry whose stringification throws, or the string it produces. */
  type Registry = ObjectId -> Option<Completion<string>>

  /** The text a token list displays, read left to right. */
  function Text(ts: seq<Token>): string
    decreases |ts|
  {
    if |ts| == 0 then "" else ts[0].text + Text(ts[1..])
  }

  function Kinds(ts: seq<Token>): seq<TokenKind> {
    seq(|ts|, i requires 0 <= i < |ts| => ts[i].kind)
  }

  /** The text of seven tokens, spelled out. */
  lemma TextOfSeven(r: seq<Token>)
    requires |r| == 7
    ensures Text(r) == r[0].text + (r[1].text + (r[2].text + (r[3].text + (r[4].text + (r[5].text + r[6].text)))))
  {
    assert Text(r[6..]) == r[6].text + Text(r[7..]);
    assert Text(r[5..]) == r[5].text + Text(r[6..]);
    assert Text(r[4..]) == r[4].text + Text(r[5..]);
    assert Text(r[3..]) == r[3].text + Text(r[4..]);
    assert Text(r[2..]) == r[2].text + Text(r[3..]);
    assert Text(r[1..]) == r[1].text + Text(r[2..]);
  }

  /** The text of nine tokens, spelled out. */
  lemma TextOfNine(r: seq<Token>)
    requires |r| == 9
    ensures Text(r) == r[0].text + (r[1].text + (r[2].text + (r[3].text + (r[4].text
                     + (r[5].text + (r[6].text + (r[7].text + r[8].text)))))))
  {
    TextOfSeven(r[2..]);
    assert r[2..][0] == r[2] && r[2..][6] == r[8];
    assert Text(r[1..]) == r[1].text + Text(r[2..]);
  }

  lemma {:induction false} TextConcat(a: seq<Token>, b: seq<Token>)
    ensures Text(a + b) == Text(a) + Text(b)
    decreases |a|
  {
    if |a| == 0 {
      assert a + b == b;
    } else {
      assert (a + b)[1..] == a[1..] + b;
      TextConcat(a[1..], b);
    }
  }

  // ---------------------------------------------------------------------------
  // Component nodes

  /** Angle-bracket invocation `<Foo::Bar>` is used exactly when there are no positional arguments. */
  predicate UsesAngleBracket(node: Node) {
    |node.positional| == 0
  }

  /** The `/`-separated segments of a component name, each passed through
      `classify` for angle-bracket invocation and left unchanged otherwise. */
  function Segments(node: Node, classify: string -> string): (parts: seq<string>)
    ensures |parts| == |Split(node.name, '/')|
    ensures forall i :: 0 <= i < |parts| ==>
              parts[i] == (if UsesAngleBracket(node) then classify(Split(node.name, '/')[i])
                           else Split(node.name, '/')[i])
  {
    var raw := Split(node.name, '/');
    if UsesAngleBracket(node) then seq(|raw|, i requires 0 <= i < |raw| => classify(raw[i])) else raw
  }

  /** Each namespace segment followed by a `::` tag. */
  function NamespaceTokens(ns: seq<string>): (r: seq<Token>)
    ensures |r| == 2 * |ns|
    ensures forall j :: 0 <= j < |r| ==>
              r[j] == if j % 2 == 0 then Token(Namespace, ns[j / 2]) else Token(Tag, "::")
    decreases |ns|
  {
    if |ns| == 0 then []
    else
      var rest := NamespaceTokens(ns[1..]);
      var r := [Token(Namespace, ns[0]), Token(Tag, "::")] + rest;
      assert forall j :: 2 <= j < |r| ==> r[j] == rest[j - 2] && ns[j / 2] == ns[1..][(j - 2) / 2];
      r
  }

  function OpenTag(node: Node): string {
    if UsesAngleBracket(node) then "<" else "{{"
  }

  function CloseTag(node: Node): string {
    if UsesAngleBracket(node) then ">" else "}}"
  }

  /** The shape of an opening tag, the namespace tokens of all but the last of
      `parts`, the last part as a name, and a closing tag: namespace segments and
      `::` alternate from index 1 up to the name. */
  lemma ComponentTokensShape(open: Token, parts: seq<string>, close: Token)
    requires |parts| >= 1
    ensures var r := [open] + NamespaceTokens(parts[..|parts| - 1]) + [Token(Name, parts[|parts| - 1]), close];
            && |r| == 2 * |parts| + 1
            && r[0] == open && r[|r| - 1] == close
            && r[|r| - 2] == Token(Name, parts[|parts| - 1])
            && forall j :: 1 <= j < |r| - 2 ==>
                 r[j] == if j % 2 == 1 then Token(Namespace, parts[(j - 1) / 2]) else Token(Tag, "::")
  {
    var ns := parts[..|parts| - 1];
    var nsTokens := NamespaceTokens(ns);
    var r := [open] + nsTokens + [Token(Name, parts[|parts| - 1]), close];
    forall j | 1 <= j < |r| - 2
      ensures r[j] == if j % 2 == 1 then Token(Namespace, parts[(j - 1) / 2]) else Token(Tag, "::")
    {
      assert r[j] == nsTokens[j - 1];
      assert (j - 1) % 2 == 0 <==> j % 2 == 1;
      assert (j - 1) / 2 < |ns|;
    }
  }

  /** `_tokenizeComponentNode`: the opening tag, the namespace segments each
      followed by `::`, the leaf segment as a name, then the closing tag. */
  function TokenizeComponentNode(node: Node, classify: string -> string): (r: seq<Token>)
    ensures |r| == 2 * |Split(node.name, '/')| + 1
    ensures r[0] == Token(Tag, if |node.positional| == 0 then "<" else "{{")
    ensures r[|r| - 1] == Token(Tag, if |node.positional| == 0 then ">" else "}}")
    ensures forall j :: 1 <= j < |r| - 2 ==>
              r[j] == if j % 2 == 1 then Token(Namespace, Segments(node, classify)[(j - 1) / 2]) else Token(Tag, "::")
    ensures r[|r| - 2] == Token(Name, Segments(node, classify)[|Segments(node, classify)| - 1])
  {
    var parts := Segments(node, classify);
    var ns := parts[..|parts| - 1];
    var nsTokens := NamespaceTokens(ns);
    ComponentTokensShape(Token(Tag, OpenTag(node)), parts, Token(Tag, CloseTag(node)));
    [Token(Tag, OpenTag(node))] + nsTokens + [Token(Name, parts[|parts| - 1]), Token(Tag, CloseTag(node))]
  }

  /** The texts of the namespace and name tokens, in order: the segments a reader
      recovers from a component label. */
  function SegmentTexts(ts: seq<Token>): seq<string>
    decreases |ts|
  {
    if |ts| == 0 then []
    else if ts[0].kind == Namespace || ts[0].kind == Name then [ts[0].text] + SegmentTexts(ts[1..])
    else SegmentTexts(ts[1..])
  }

  lemma {:induction false} SegmentTextsConcat(a: seq<Token>, b: seq<Token>)
    ensures SegmentTexts(a + b) == SegmentTexts(a) + SegmentTexts(b)
    decreases |a|
  {
    if |a| == 0 {
      assert a + b == b;
    } else {
      assert (a + b)[1..] == a[1..] + b;
      SegmentTextsConcat(a[1..], b);
    }
  }

  lemma {:induction false} NamespaceSegments(ns: seq<string>)
    ensures SegmentTexts(NamespaceTokens(ns)) == ns
    decreases |ns|
  {
    if |ns| > 0 {
      var rest := NamespaceTokens(ns[1..]);
      NamespaceSegments(ns[1..]);
      SegmentTextsConcat([Token(Namespace, ns[0]), Token(Tag, "::")], rest);
      assert ns == [ns[0]] + ns[1..];
    }
  }

  /** The namespace and name tokens of a component label are exactly its segments. */
  lemma ComponentSegmentsRecovered(node: Node, classify: string -> string)
    ensures SegmentTexts(TokenizeComponentNode(node, classify)) == Segments(node, classify)
  {
    var parts := Segments(node, classify);
    var ns := parts[..|parts| - 1];
    var nsTokens := NamespaceTokens(ns);
    var tail := [Token(Name, parts[|parts| - 1]), Token(Tag, CloseTag(node))];
    SegmentTextsConcat([Token(Tag, OpenTag(node))], nsTokens + tail);
    SegmentTextsConcat(nsTokens, tail);
    NamespaceSegments(ns);
    assert [Token(Tag, OpenTag(node))] + nsTokens + tail == [Token(Tag, OpenTag(node))] + (nsTokens + tail);
    assert SegmentTexts(tail[1..]) == [] by {
      assert tail[1..][1..] == [];
    }
    assert SegmentTexts(tail) == [parts[|parts| - 1]];
    assert parts == ns + [parts[|parts| - 1]];
  }

  /** With positional arguments the label keeps the segments verbatim, so joining
      them with `/` gives back the component's name. */
  lemma CurlyLabelRecoversName(node: Node, classify: string -> string)
    requires !UsesAngleBracket(node)
    ensures Join(SegmentTexts(TokenizeComponentNode(node, classify)), "/") == node.name
  {
    ComponentSegmentsRecovered(node, classify);
    JoinSplit(node.name, '/');
  }

  lemma {:induction false} NamespaceText(ns: seq<string>, leaf: string)
    ensures Text(NamespaceTokens(ns) + [Token(Name, leaf)]) == Join(ns + [leaf], "::")
    decreases |ns|
  {
    if |ns| == 0 {
      assert NamespaceTokens(ns) + [Token(Name, leaf)] == [Token(Name, leaf)];
      assert ns + [leaf] == [leaf];
    } else {
      var rest := NamespaceTokens(ns[1..]);
      NamespaceText(ns[1..], leaf);
      assert NamespaceTokens(ns) + [Token(Name, leaf)]
          == [Token(Namespace, ns[0]), Token(Tag, "::")] + (rest + [Token(Name, leaf)]);
      TextConcat([Token(Namespace, ns[0]), Token(Tag, "::")], rest + [Token(Name, leaf)]);
      assert (ns + [leaf])[1..] == ns[1..] + [leaf];
    }
  }

  /** The label reads as the open tag, the segments joined by `::`, and the close tag:
      `my-addon/foo-bar` becomes `<MyAddon::FooBar>` or `{{my-addon::foo-bar}}`. */
  lemma ComponentLabelText(node: Node, classify: string -> string)
    ensures Text(TokenizeComponentNode(node, classify))
         == OpenTag(node) + Join(Segments(node, classify), "::") + CloseTag(node)
  {
    var parts := Segments(node, classify);
    var ns := parts[..|parts| - 1];
    var leaf := parts[|parts| - 1];
    var open := [Token(Tag, OpenTag(node))];
    var middle := NamespaceTokens(ns) + [Token(Name, leaf)];
    var close := [Token(Tag, CloseTag(node))];
    assert TokenizeComponentNode(node, classify) == open + middle + close;
    NamespaceText(ns, leaf);
    assert ns + [leaf] == parts;
    assert Text(middle) == Join(parts, "::");
    TextConcat(open + middle, close);
    TextConcat(open, middle);
    assert Text(open) == OpenTag(node) by {
      assert open[1..] == [];
    }
    assert Text(close) == CloseTag(node) by {
      assert close[1..] == [];
    }
  }

  // ---------------------------------------------------------------------------
  // Values and objects

  /** The nine tokens shown for a recognised identity `<app@type:name::id>`. */
  function IdentityTokens(x: Identity.Identity): (r: seq<Token>)
    ensures |r| == 9
    ensures Kinds(r) == [Tag, Namespace, Tag, Namespace, Tag, Name, Tag, Id, Tag]
    ensures r[1].text == x.app && r[3].text == x.kind && r[5].text == x.name && r[7].text == x.id
    ensures Identity.Identity(r[1].text, r[3].text, r[5].text, r[7].text) == x
    ensures Text(r) == Identity.Render(x)
  {
    var r := [
      Token(Tag, "<"), Token(Namespace, x.app), Token(Tag, "@"), Token(Namespace, x.kind),
      Token(Tag, ":"), Token(Name, x.name), Token(Tag, "::"), Token(Id, x.id), Token(Tag, ">")
    ];
    TextOfNine(r);
    r
  }

  const UnknownTokens: seq<Token> := [Token(Tag, "(unknown)")]

  /** `!object || !stringified`: no registry entry, stringification threw, or it produced "". */
  predicate IsUnknown(entry: Option<Completion<string>>) {
    entry.None? || entry.value.Throw? || entry.value.value == ""
  }

  /** `_tokenizeObject`: looks the object up and parses its string form. */
  function TokenizeObject(ref: ObjectId, registry: Registry): (r: seq<Token>)
    ensures IsUnknown(registry(ref)) ==> r == UnknownTokens
    ensures !IsUnknown(registry(ref)) ==>
              var str := registry(ref).value.value;
              && (Identity.Search(str).Some? ==> r == IdentityTokens(Identity.Search(str).value.identity))
              && (Identity.Search(str).None? ==> r == [Token(Tag, str)])
  {
    var entry := registry(ref);
    if IsUnknown(entry) then UnknownTokens
    else
      var str := entry.value.value;
      match Identity.Search(str)
      case Some(found) => IdentityTokens(found.identity)
      case None => [Token(Tag, str)]
  }

  /** `${item}` for the scalar values. */
  function ScalarText(v: Value): string
    requires v.IsScalar()
  {
    match v
    case Str(s) => s
    case Num(n) => IntToDecimal(n)
    case BigInt(big) => IntToDecimal(big)
    case Bool(b) => if b then "true" else "false"
    case Undefined => "undefined"
    case Null => "null"
  }

  /** `_tokenizeItem`: a scalar is one `id` token holding its text; an object
      reference goes through `TokenizeObject`. */
  function TokenizeItem(v: Value, registry: Registry): (r: seq<Token>)
    ensures v.IsScalar() ==> |r| == 1 && r[0].kind == Id
    ensures v.Str? ==> r == [Token(Id, v.s)]
    ensures v.Num? ==> r == [Token(Id, IntToDecimal(v.n))]
    ensures v.BigInt? ==> r == [Token(Id, IntToDecimal(v.big))]
    ensures v.Bool? ==> r == [Token(Id, if v.b then "true" else "false")]
    ensures v.Null? ==> r == [Token(Id, "null")]
    ensures v.Undefined? ==> r == [Token(Id, "undefined")]
    ensures v.ObjectRef? ==> r == TokenizeObject(v.id, registry)
  {
    if v.IsScalar() then [Token(Id, ScalarText(v))] else TokenizeObject(v.id, registry)
  }

  /** A number's token reads back as that number. */
  lemma NumberTokenReadsBack(n: JsInteger, registry: Registry)
    ensures var t := TokenizeItem(Num(n), registry)[0].text;
            (if t[0] == '-' then -(DecimalValue(t[1..]) as int) else DecimalValue(t)) == n
  {
    IntDecimalRoundTrip(n);
  }

  /** A value yields a single `id` token exactly when it is a scalar: object labels
      never take that shape. */
  lemma SingleIdTokenIffScalar(v: Value, registry: Registry)
    ensures var r := TokenizeItem(v, registry);
            (|r| == 1 && r[0].kind == Id) <==> v.IsScalar()
  {
    if v.ObjectRef? {
      var entry := registry(v.id);
      if !IsUnknown(entry) {
        var str := entry.value.value;
        if Identity.Search(str).Some? {
          assert Kinds(IdentityTokens(Identity.Search(str).value.identity))[0] == Tag;
        }
      }
    }
  }

  /** A recognised identity in the object's string form is shown as its nine tokens,
      whatever text surrounds it. */
  lemma ObjectIdentityTokens(ref: ObjectId, registry: Registry, pre: string, x: Identity.Identity, post: string)
    requires Identity.Valid(x) && '<' !in pre
    requires registry(ref) == Some(Normal(pre + Identity.Render(x) + post))
    ensures TokenizeObject(ref, registry) == IdentityTokens(x)
  {
    Identity.SearchInContext(pre, x, post);
  }
}

=== FILE: wrappers.dfy ===
/** Option and Completion, shared by the model. */
module Wrappers {

  /** A present or absent value; stands for JavaScript's `null`/`undefined` results. */
  datatype Option<+T> = None | Some(value: T)

  /** The completion of a JavaScript expression that may throw: it either
      returns normally with a value or throws (the thrown value is irrelevant here). */
  datatype Completion<+T> = Normal(value: T) | Throw
}
